=== FILE: README.md ===
# DALL·E Space core, modelled in Dafny

DALL·E Space is a web application that turns a short text description into
images: a chat model can first rewrite the description into a detailed
prompt, an image model generates the pictures, and the results are kept in
the browser's local storage. This project models the non-visual core of it:

- the **local image store** (`src/lib/db.ts`): an ordered list of image
  records under one storage key, with save (prepend), read-all, find by id,
  delete by id and clear;
- the **bounded retry loop** of the image-generation route
  (`retryOperation`): a fixed number of attempts, a flat wait after every
  failure (three times the base delay when the failure mentions a rate
  limit), and the last failure rethrown unchanged;
- the four **API routes**: generate-image (validation, defaults, retry,
  ordered error classification), image-variations and edit-image (prompt
  templates around one image-generation call), and enhance-prompt (language
  to instruction selection and the two-message chat layout).

Files: `js.dfy` (JavaScript values: optional fields, thrown values, call
outcomes, falsiness, `includes`), `http.dfy` (responses and the shared
`error.message || fallback` catch), `openai.dfy` (provider request and
response shapes), `image_store.dfy`, `retry.dfy`, `generate_image.dfy`,
`image_variations.dfy`, `edit_image.dfy`, `enhance_prompt.dfy`.

Modelling choices:

- Storage is `Absent | Corrupt | Valid(images)` instead of JSON text. A
  missing key and an empty string are both `Absent`; a value that fails to
  parse is `Corrupt`.
- `Host = Browser | Server` stands for `typeof window`. Reads on the server
  return the empty list. `saveImage` and `clearAllImages` on the server reach
  the undefined `localStorage` and throw a ReferenceError (`Err`).
  `deleteImage` on the server reads an empty list and returns false without
  writing.
- `crypto.randomUUID()` and `Date.now()` become parameters of `SaveImage`.
  The identifier must not already be stored.
- The provider calls are oracles. The retry loop receives the sequence of
  outcomes its successive invocations would produce. Each single-call route
  receives the one outcome its call would produce. Every handler returns an
  `Exchange`: the response, the request passed to every call of the
  provider's client method (`images.generate` or `chat.completions.create`),
  and every wait of the route's own retry loop. "No provider call" means the
  list of calls is empty.
- A thrown value is `ErrorValue(message)` (an `Error` instance),
  `PlainValue(message?)` (any other non-null value, with its `message`
  property when that is a string), `Undefined` or `Null`.
  Reading `error.message` of `undefined` or `null` inside a `catch` throws
  out of the handler; that is the `Uncaught` response.
- Generate-image only casts `size` and `style` to the provider's accepted
  values and never checks them or `n`; the model passes any value through.

## Model

| member | source | states |
|---|---|---|
| Js.Truthy | src/app/api/generate-image/route.ts:42 | a request string field is falsy exactly when it is absent or the empty string |
| Js.Includes | src/app/api/generate-image/route.ts:74-80 | the left-to-right `includes` scan answers true exactly when the text occurs at some position of the message, the empty text included |
| Http.MessageProperty | src/app/api/image-variations/route.ts:37 | `error.message` is an Error's message, and a plain value's message property if it has one |
| LocalImageStore.GetAllImages | src/lib/db.ts:32-44 | reading never fails on the three storage states: on the server, for an absent or empty key, and for unparsable data it yields the empty list; otherwise the stored list |
| LocalImageStore.IndexOf | src/lib/db.ts:50 | the position found holds the identifier and no earlier record does; no position is found exactly when no record has the identifier |
| LocalImageStore.GetImageById | src/lib/db.ts:49-51 | the result is the first stored record with the identifier, and there is none exactly when no stored record has it |
| LocalImageStore.Without | src/lib/db.ts:58 | the filtered list has no record with the identifier, keeps every other record and nothing new, and is shorter exactly when some record had the identifier |
| LocalImageStore.SaveImage | src/lib/db.ts:16-27 | in a browser the stored list becomes the new record followed by the old list, one longer; the record is the draft's fields plus the given id and time; on the server it throws |
| LocalImageStore.DeleteImage | src/lib/db.ts:56-66 | reports a removal exactly when some record had the identifier; an unknown id leaves storage untouched; afterwards no record has the id |
| LocalImageStore.ClearAllImages | src/lib/db.ts:71-73 | in a browser with storage access, clearing succeeds and removes the key, so reading afterwards yields the empty list; on the server it throws |
| LocalImageStore.WithoutAppend | src/lib/db.ts:58 | filtering distributes over concatenation, so the kept records stay in their original order |
| LocalImageStore.WithoutKeepsUniqueIds | src/lib/db.ts:58 | filtering a list with distinct identifiers keeps them distinct |
| LocalImageStore.WithoutKeepsNewestFirst | src/lib/db.ts:58 | filtering a list ordered most recent first keeps that order |
| LocalImageStore.SaveThenGetById | src/lib/db.ts:16-27 | after saving, looking up the new id returns the saved record and every other lookup answers as before |
| LocalImageStore.SaveThenDelete | src/lib/db.ts:16-27 | deleting the record just saved reports a removal and restores the list read before the save |
| LocalImageStore.StoreInvariants | src/lib/db.ts:16-27 | saves with a fresh id and a time no earlier than the stored ones, and deletes, keep ids unique and the list most recent first |
| Retry.SignalsRateLimit | src/app/api/generate-image/route.ts:23-24 | a failure counts as rate limiting exactly when it is an Error whose message contains "rate limit" or "429" |
| Retry.WaitFor | src/app/api/generate-image/route.ts:23-26 | the wait after a failure is three times the base delay for an Error mentioning "rate limit" or "429", the base delay otherwise, whatever the attempt |
| Retry.Attempts | src/app/api/generate-image/route.ts:16-35 | from any point of the loop: only the last invocation may succeed and its value is returned; a failing run uses every attempt and rethrows the last failure; a wait follows every failure |
| Retry.RetryOperation | src/app/api/generate-image/route.ts:9-36 | the whole loop satisfies the run description with the uninitialised `lastError` as the value thrown when no attempt is made |
| Retry.RetryLoop | src/app/api/generate-image/route.ts:14-35 | the statement-by-statement loop satisfies the same description and returns the same run as the recursive definition |
| Retry.DescribesUnique | src/app/api/generate-image/route.ts:16-35 | the run description determines the result, invocation count and waits completely |
| Retry.AlwaysFailing | src/app/api/generate-image/route.ts:16-35 | an always-failing operation is invoked exactly maxRetries times, waited on after each failure, and its last failure is thrown unwrapped |
| Retry.FirstSuccess | src/app/api/generate-image/route.ts:16-18 | a first success on attempt j is returned after exactly j invocations and j - 1 waits |
| Retry.NoAttempts | src/app/api/generate-image/route.ts:14-16 | with maxRetries at most 0 the operation is never invoked and `undefined` is thrown |
| GenerateImageRoute.ProviderRequest | src/app/api/generate-image/route.ts:40-57 | the provider request uses the image model and the prompt, with n 1, size "1024x1024" and style "vivid" when absent and the given values otherwise |
| GenerateImageRoute.Classify | src/app/api/generate-image/route.ts:63-89 | ordered classification: rate limit or 429 gives 429, else content policy gives 400, else invalid_api_key gives 401, else 500 with the raw message; a non-Error gives 500 "Failed to generate image" |
| GenerateImageRoute.Post | src/app/api/generate-image/route.ts:38-91 | a missing prompt gives 400 with no call and no wait; otherwise one to three calls of the provider method with the same request, success exactly when some of the three answers succeeds, the classified last failure otherwise, and one wait of the route's own loop, 2000 or 6000 ms, per failure |
| GenerateImageRoute.RateLimitedThrice | src/app/api/generate-image/route.ts:50-60 | three rate-limited failures give 429 after three calls of the provider method and three waits of 6000 ms |
| ImageVariationsRoute.VariationPrompt | src/app/api/image-variations/route.ts:23 | the variation prompt is the fixed lead, the URL, the fixed middle, the prompt and the fixed tail, in that order |
| ImageVariationsRoute.OutboundPrompt | src/app/api/image-variations/route.ts:21-24 | without a reference URL the user's prompt goes out unchanged; with one, the template does |
| ImageVariationsRoute.Post | src/app/api/image-variations/route.ts:8-41 | a missing prompt gives 400 and no call; otherwise exactly one square request whose n is 1 when absent and the given value otherwise, the provider's answer on success and the message-or-fallback 500 on failure |
| ImageVariationsRoute.VariationPromptReadBack | src/app/api/image-variations/route.ts:23 | for URLs of equal length, equal variation prompts mean equal URLs and prompts |
| ImageVariationsRoute.AlwaysSquare | src/app/api/image-variations/route.ts:26-31 | every variation request is 1024x1024 and carries no style, whatever the input |
| EditImageRoute.EditPrompt | src/app/api/edit-image/route.ts:23 | the edit prompt is the fixed lead, the URL, the separator and the prompt, in that order |
| EditImageRoute.Post | src/app/api/edit-image/route.ts:8-36 | a request lacking either the URL or the prompt gives the same 400 and no call; otherwise one request with n 1 and size 1024x1024; failures give the message-or-fallback 500 |
| EditImageRoute.EditPromptReadBack | src/app/api/edit-image/route.ts:23 | for URLs of equal length, equal edit prompts mean equal URLs and prompts |
| EnhancePromptRoute.Instruction | src/app/api/enhance-prompt/route.ts:20-22 | exactly the language "ko" selects the Korean instruction; every other value selects the English one |
| EnhancePromptRoute.ChatRequest | src/app/api/enhance-prompt/route.ts:24-32 | the chat request holds exactly the system instruction followed by the user's prompt unchanged, at temperature 0.7 with at most 300 tokens |
| EnhancePromptRoute.Post | src/app/api/enhance-prompt/route.ts:8-44 | a missing prompt gives 400 and no call; the instruction is chosen by the given language, or by "en" when it is absent; success answers with the first choice's content; no choice or a failure gives 500 |
| EnhancePromptRoute.DefaultsToEnglish | src/app/api/enhance-prompt/route.ts:10 | a request without a language is sent the English instruction |
| Http.CatchAll | src/app/api/image-variations/route.ts:34-40 | a failure gives 500 with the thrown value's message when it is a non-empty string and the fallback otherwise; `undefined` and `null` escape the handler |

## Left out

- JSON encoding and decoding, and the local-storage API itself: abstracted to the three storage states. A value that parses to something other than a list of records is not distinguished from a list.
- `crypto.randomUUID()` and `Date.now()`: randomness and the clock are parameters of `SaveImage`; a UUID collision is excluded by its precondition.
- The provider calls (`images.generate`, `chat.completions.create`) and the network: replaced by given outcomes. What the chat model writes back is not modelled, so the promise that an enhanced prompt keeps the user's subject is not stated.
- The provider client's built-in retries: the default client itself retries timeouts, conflicts, rate limits, server errors and connection failures, with its own backoff, inside one call of `images.generate` or `chat.completions.create`. All of those HTTP requests and sleeps sit inside one oracle outcome; `calls` and `waits` record calls of the client method and waits of the route's own loop only.
- `setTimeout`: waits are recorded as a list of durations, never slept.
- The default arguments of `retryOperation` (3 attempts, 1000 ms): the only caller always passes 3 and 2000, and the model takes both explicitly.
- `Number(n)` and other JavaScript coercions, and request bodies that are not JSON: `n` is an integer field and the other fields are strings or absent.
- Http.MessageProperty: a thrown non-Error whose `message` property is not a string (`throw { message: 42 }`) is not represented; it can only be encoded with the message absent.
- Http.CatchAll: as a consequence, for a thrown non-Error with a truthy non-string `message` the model answers 500 with the fallback, where the source's `error.message || fallback` answers 500 with that value as `error`; responses carry string errors only.
- LocalImageStore.GetAllImages: browser storage access is assumed to be granted. Only `JSON.parse` sits inside the `try`; where the browser denies storage access, reading `localStorage` or calling `getItem` throws, and so do `saveImage`, `getImageById` and `deleteImage`, which read first.
- LocalImageStore.ClearAllImages: likewise assumes storage access is granted; `removeItem` throws where it is denied.
- LocalImageStore.SaveImage: a browser write is assumed to succeed; `localStorage.setItem` can throw (storage quota exceeded, storage disabled) and the source does not catch it, so the real `saveImage` can throw in a browser too.
- LocalImageStore.DeleteImage: likewise assumes the write-back of the filtered list succeeds.
- Logging (`console.log` of each retry, `console.error` in every `catch` and on unparsable storage): output only, no effect on results.
- An explicit JSON `null` in a request field is read as absent. JavaScript applies a destructuring default only to `undefined`, so a `null` `n`, `size` or `style` would reach the provider as `null` (or `0` for `n`) instead of the default; for `prompt`, `imageUrl`, `referenceImageUrl` and `language` the outcome is the same.
- Concurrent saves and deletes that interleave their read-modify-write: the model is sequential.
- The user interface (forms, gallery, image viewer, header, the session flow between them) and its length-at-least-3 prompt check: rendering and component state only.

=== FILE: edit_image.dfy ===
/** `POST /api/edit-image`: an "edit" is one fresh image-generation call
    whose prompt mentions the original image's URL; no pixels are
    edited. */
module EditImageRoute {
  import opened Js
  import opened Http
  import opened OpenAi

  const BothRequired: string := "Image URL and prompt are required"
  const Fallback: string := "Failed to edit image"

  const EditLead: string := "Based on this image concept ("
  const EditSeparator: string := "), "

  datatype EditRequest = EditRequest(imageUrl: Option<string>, prompt: Option<string>)

  /** The template: the URL, then the user's prompt. */
  function EditPrompt(url: string, prompt: string): (p: string)
    ensures |p| == |EditLead| + |url| + |EditSeparator| + |prompt|
    ensures p[..|EditLead|] == EditLead
    ensures p[|EditLead|..|EditLead| + |url|] == url
    ensures p[|EditLead| + |url|..|EditLead| + |url| + |EditSeparator|] == EditSeparator
    ensures p[|EditLead| + |url| + |EditSeparator|..] == prompt
  {
    EditLead + url + EditSeparator + prompt
  }

  /** The handler; `answer` is how the provider call would settle. */
  function Post<B>(req: EditRequest, answer: Outcome<B>): (x: Exchange<ImageParams, B>)
    ensures x.waits == [] && |x.calls| <= 1
    ensures x.calls == [] <==> !Truthy(req.imageUrl) || !Truthy(req.prompt)
    ensures !Truthy(req.imageUrl) || !Truthy(req.prompt) ==> x.response == Reject(400, BothRequired)
    ensures Truthy(req.imageUrl) && Truthy(req.prompt) ==>
              x.calls == [ImageParams(ImageModel, EditPrompt(req.imageUrl.value, req.prompt.value), 1, SquareSize, None)]
    ensures Truthy(req.imageUrl) && Truthy(req.prompt) && answer.Ok? ==> x.response == Reply(answer.value)
    ensures Truthy(req.imageUrl) && Truthy(req.prompt) && answer.Err? ==> x.response == CatchAll(answer.thrown, Fallback)
  {
    if !Truthy(req.imageUrl) || !Truthy(req.prompt) then Exchange(Reject(400, BothRequired), [], [])
    else
      var params := ImageParams(ImageModel, EditPrompt(req.imageUrl.value, req.prompt.value), 1, SquareSize, None);
      match answer
      case Ok(body) => Exchange(Reply(body), [params], [])
      case Err(t) => Exchange(CatchAll(t, Fallback), [params], [])
  }

  /** The template can be read back: of two edits whose URLs have the same
      length, equal outbound prompts mean equal URLs and prompts. */
  lemma EditPromptReadBack(url1: string, prompt1: string, url2: string, prompt2: string)
    requires |url1| == |url2|
    requires EditPrompt(url1, prompt1) == EditPrompt(url2, prompt2)
    ensures url1 == url2 && prompt1 == prompt2
  {
  }
}

=== FILE: enhance_prompt.dfy ===
/** `POST /api/enhance-prompt`: asks a chat model to rewrite a short image
    description into a detailed prompt. The instruction is a fixed text
    chosen by language: Korean for exactly "ko", English otherwise. */
module EnhancePromptRoute {
  import opened Js
  import opened Http
  import opened OpenAi

  const DefaultLanguage: string := "en"
  const PromptRequired: string := "Prompt is required"
  const Fallback: string := "Failed to enhance prompt"

  /** The TypeError message V8 produces for `choices[0].message` when
      `choices` is empty; it is caught and reported like a provider
      failure. */
  const NoChoiceMessage: string := "Cannot read properties of undefined (reading 'message')"

  const Temperature: real := 0.7
  const MaxTokens: int := 300

  const KoreanInstruction: string := "당신은 사용자의 짧은 이미지 설명을 받아 DALL-E 3에 적합한 상세하고 명확한 프롬프트로 변환하는 전문가입니다. 원래 아이디어를 유지하면서 다음을 추가하세요: 1) 더 자세한 시각적 세부 사항, 2) 스타일, 분위기, 조명에 대한 설명, 3) 색상 팔레트, 4) 적절한 경우 구도와 시점. 단, 내용을 지나치게 변경하거나 사용자가 언급하지 않은 주요 요소를 추가하지 마세요. 영어로 출력하세요."
  const EnglishInstruction: string := "You are an expert at turning brief image descriptions into detailed, effective prompts for DALL-E 3. Enhance the user's prompt while maintaining their original idea by adding: 1) more visual details, 2) style, mood, and lighting descriptions, 3) color palette, and 4) composition and perspective when appropriate. Don't drastically change the content or add major elements not mentioned by the user."

  datatype EnhanceRequest = EnhanceRequest(prompt: Option<string>, language: Option<string>)

  /** The JSON body of a successful answer; a `null` content stays `null`. */
  datatype EnhanceBody = EnhanceBody(enhancedPrompt: Option<string>)

  /** The system message for a (defaulted) language. */
  function Instruction(language: string): (s: string)
    ensures s == KoreanInstruction <==> language == "ko"
    ensures s == EnglishInstruction <==> language != "ko"
  {
    if language == "ko" then KoreanInstruction else EnglishInstruction
  }

  /** The chat request: the instruction as system message, then the user's
      prompt unchanged. */
  function ChatRequest(prompt: string, language: string): (c: ChatParams)
    ensures c.model == ChatModel && c.temperature == Temperature && c.maxTokens == MaxTokens
    ensures |c.messages| == 2
    ensures c.messages[0].role == System && c.messages[0].content == Instruction(language)
    ensures c.messages[1] == Message(User, prompt)
  {
    ChatParams(ChatModel, [Message(System, Instruction(language)), Message(User, prompt)], Temperature, MaxTokens)
  }

  /** The handler; `answer` is how the chat call would settle. */
  function Post(req: EnhanceRequest, answer: Outcome<Completion>): (x: Exchange<ChatParams, EnhanceBody>)
    ensures x.waits == [] && |x.calls| <= 1
    ensures x.calls == [] <==> !Truthy(req.prompt)
    ensures !Truthy(req.prompt) ==> x.response == Reject(400, PromptRequired)
    ensures Truthy(req.prompt) ==> x.calls == [ChatRequest(req.prompt.value, req.language.GetOr(DefaultLanguage))]
    ensures Truthy(req.prompt) && req.language.None? ==> x.calls[0].messages[0].content == Instruction(DefaultLanguage)
    ensures Truthy(req.prompt) && req.language.Some? ==> x.calls[0].messages[0].content == Instruction(req.language.value)
    ensures (Truthy(req.prompt) && answer.Ok? && |answer.value.choices| > 0)
            ==> x.response == Reply(EnhanceBody(answer.value.choices[0].content))
    ensures (Truthy(req.prompt) && answer.Ok? && |answer.value.choices| == 0)
            ==> x.response == Reject(500, NoChoiceMessage)
    ensures Truthy(req.prompt) && answer.Err? ==> x.response == CatchAll(answer.thrown, Fallback)
  {
    if !Truthy(req.prompt) then Exchange(Reject(400, PromptRequired), [], [])
    else
      var chat := ChatRequest(req.prompt.value, req.language.GetOr(DefaultLanguage));
      match answer
      case Ok(completion) =>
        if |completion.choices| == 0 then Exchange(Reject(500, NoChoiceMessage), [chat], [])
        else Exchange(Reply(EnhanceBody(completion.choices[0].content)), [chat], [])
      case Err(t) => Exchange(CatchAll(t, Fallback), [chat], [])
  }

  /** Without a language the instruction is the English one. */
  lemma DefaultsToEnglish(prompt: string, answer: Outcome<Completion>)
    requires prompt != ""
    ensures Post(EnhanceRequest(Some(prompt), None), answer).calls[0].messages[0].content == EnglishInstruction
  {
  }
}

=== FILE: generate_image.dfy ===
/** `POST /api/generate-image`: validates the prompt, fills in defaults,
    calls the image provider through `retryOperation` (3 attempts, 2000 ms
    base delay), and maps a final failure to a status and message by testing
    the failure's message for substrings, first match wins. */
module GenerateImageRoute {
  import opened Js
  import opened Http
  import opened OpenAi
  import opened Retry

  const MaxRetries: int := 3
  const RetryDelayMs: int := 2000

  const DefaultN: int := 1
  const DefaultSize: string := "1024x1024"
  const DefaultStyle: string := "vivid"

  const PromptRequired: string := "Prompt is required"
  const GenericFailure: string := "Failed to generate image"
  const RateLimitMessage: string := "Rate limit exceeded. Please try again later."
  const ContentPolicyMessage: string := "Your prompt may violate content policy. Please modify your request."
  const ApiKeyMessage: string := "API key issue. Please contact administrator."

  /** The fields of the JSON body the route reads. Nothing checks that
      `size` and `style` are among the values the provider accepts: they are
      only cast. */
  datatype GenerateRequest = GenerateRequest(prompt: Option<string>, n: Option<int>, size: Option<string>, style: Option<string>)

  datatype Classified = Classified(status: int, message: string)

  /** The request the provider receives on every attempt. */
  function ProviderRequest(prompt: string, req: GenerateRequest): (p: ImageParams)
    ensures p.model == ImageModel && p.prompt == prompt
    ensures req.n.None? ==> p.n == DefaultN
    ensures req.size.None? ==> p.size == DefaultSize
    ensures req.style.None? ==> p.style == Some(DefaultStyle)
    ensures req.n.Some? ==> p.n == req.n.value
    ensures req.size.Some? ==> p.size == req.size.value
    ensures req.style.Some? ==> p.style == req.style
  {
    ImageParams(ImageModel, prompt, req.n.GetOr(DefaultN), req.size.GetOr(DefaultSize), Some(req.style.GetOr(DefaultStyle)))
  }

  /** The route's `catch` block. The tests are ordered: a message that
      mentions a rate limit is classified as such even if it also mentions
      the content policy or the API key. */
  function Classify(t: Thrown): (c: Classified)
    ensures !t.ErrorValue? ==> c == Classified(500, GenericFailure)
    ensures SignalsRateLimit(t) ==> c == Classified(429, RateLimitMessage)
    ensures (t.ErrorValue? && !SignalsRateLimit(t) && Occurs(t.message, "content policy"))
            ==> c == Classified(400, ContentPolicyMessage)
    ensures (t.ErrorValue? && !SignalsRateLimit(t) && !Occurs(t.message, "content policy")
             && Occurs(t.message, "invalid_api_key"))
            ==> c == Classified(401, ApiKeyMessage)
    ensures (t.ErrorValue? && !SignalsRateLimit(t) && !Occurs(t.message, "content policy")
             && !Occurs(t.message, "invalid_api_key"))
            ==> c == Classified(500, t.message)
  {
    match t
    case ErrorValue(m) =>
      if SignalsRateLimit(t) then Classified(429, RateLimitMessage)
      else if Includes(m, "content policy") then Classified(400, ContentPolicyMessage)
      else if Includes(m, "invalid_api_key") then Classified(401, ApiKeyMessage)
      else Classified(500, m)
    case _ => Classified(500, GenericFailure)
  }

  /** The handler. `answers[i]` is how the provider settles on the `i`-th
      attempt; the body it resolves with is passed through untouched. */
  function Post<B>(req: GenerateRequest, answers: seq<Outcome<B>>): (x: Exchange<ImageParams, B>)
    requires MaxRetries <= |answers|
    ensures !Truthy(req.prompt) ==> x == Exchange(Reject(400, PromptRequired), [], [])
    ensures Truthy(req.prompt) ==> 1 <= |x.calls| <= MaxRetries
    ensures forall i :: 0 <= i < |x.calls| ==> x.calls[i] == ProviderRequest(req.prompt.value, req)
    ensures x.response.Reply? <==> Truthy(req.prompt) && exists j :: 0 <= j < MaxRetries && answers[j].Ok?
    ensures x.response.Reply? ==>
              && answers[|x.calls| - 1] == Ok(x.response.body)
              && forall i :: 0 <= i < |x.calls| - 1 ==> answers[i].Err?
    ensures Truthy(req.prompt) && !x.response.Reply? ==>
              && |x.calls| == MaxRetries
              && x.response == Reject(Classify(answers[MaxRetries - 1].thrown).status,
                                      Classify(answers[MaxRetries - 1].thrown).message)
    ensures !x.response.Uncaught?
    ensures |x.waits| == (if x.response.Reply? then |x.calls| - 1 else |x.calls|)
    ensures forall i :: 0 <= i < |x.waits| ==>
              && answers[i].Err?
              && (SignalsRateLimit(answers[i].thrown) ==> x.waits[i] == 3 * RetryDelayMs)
              && (!SignalsRateLimit(answers[i].thrown) ==> x.waits[i] == RetryDelayMs)
  {
    if !Truthy(req.prompt) then Exchange(Reject(400, PromptRequired), [], [])
    else
      var params := ProviderRequest(req.prompt.value, req);
      var run := RetryOperation(answers, MaxRetries, RetryDelayMs);
      var calls := seq(run.invocations, _ => params);
      match run.result
      case Ok(body) => Exchange(Reply(body), calls, run.waits)
      case Err(t) =>
        var c := Classify(t);
        Exchange(Reject(c.status, c.message), calls, run.waits)
  }

  /** Three rate-limited failures in a row: the client gets 429 after three
      invocations and three waits of 6000 ms each. */
  lemma RateLimitedThrice<B>(req: GenerateRequest, answers: seq<Outcome<B>>)
    requires Truthy(req.prompt)
    requires MaxRetries <= |answers|
    requires forall i :: 0 <= i < MaxRetries ==> answers[i].Err? && SignalsRateLimit(answers[i].thrown)
    ensures var p := ProviderRequest(req.prompt.value, req);
            Post(req, answers) == Exchange(Reject(429, RateLimitMessage), [p, p, p], [6000, 6000, 6000])
  {
  }
}

=== FILE: http.dfy ===
/** What a route handler hands back to the framework, and the trace of the
    outbound provider calls it made while doing so. */
module Http {
  import opened Js

  /** `NextResponse.json(body)` with status 200, `NextResponse.json({ error },
      { status })`, or an exception escaping the handler's own `catch`
      block (the framework then answers with its generic 500 page). */
  datatype Response<+B> = Reply(body: B) | Reject(status: int, error: string) | Uncaught

  /** One handler invocation: the response, the request passed to every
      call of the provider's client method, in order, and every wait of the
      route's own retry loop. Retries the client makes inside one call are
      part of that call's outcome. */
  datatype Exchange<+P, +B> = Exchange(response: Response<B>, calls: seq<P>, waits: seq<int>)

  /** The value of `error.message` for a thrown value other than
      `undefined` and `null`. */
  function MessageProperty(t: Thrown): (m: Option<string>)
    requires !t.Undefined? && !t.Null?
    ensures t.ErrorValue? ==> m == Some(t.message)
    ensures t.PlainValue? ==> m == t.text
  {
    match t
    case ErrorValue(m) => Some(m)
    case PlainValue(text) => text
  }

  /** The shared `catch` of the single-call routes:
      `{ error: error.message || fallback }` with status 500. Reading
      `.message` of `undefined` or `null` throws a TypeError out of the
      `catch`. */
  function CatchAll<B>(t: Thrown, fallback: string): (r: Response<B>)
    ensures r.Uncaught? <==> t.Undefined? || t.Null?
    ensures !r.Uncaught? ==> r.Reject? && r.status == 500
    ensures !r.Uncaught? && Truthy(MessageProperty(t)) ==> r.error == MessageProperty(t).value
    ensures !r.Uncaught? && !Truthy(MessageProperty(t)) ==> r.error == fallback
    ensures fallback != "" ==> (r.Reject? ==> r.error != "")
  {
    match t
    case Undefined => Uncaught
    case Null => Uncaught
    case ErrorValue(m) => Reject(500, if m != "" then m else fallback)
    case PlainValue(text) => Reject(500, if Truthy(text) then text.value else fallback)
  }
}

=== FILE: image_store.dfy ===
/** The browser-side image store: an ordered list of image records kept as
    one JSON value under a single local-storage key. The JSON text is
    abstracted to whether the key is absent, holds something that does not
    parse, or holds a list of records. */
module LocalImageStore {
  import opened Js

  /** The local-storage key under which the whole list is kept. */
  const StorageKey: string := "dallespace-images"

  /** The message of the ReferenceError raised when `localStorage` is used
      outside a browser. */
  const NoLocalStorage: string := "localStorage is not defined"

  /** A stored record. `enhancedPrompt` is `None` when the field is absent:
      the form sends `undefined` when there is no enhanced prompt. */
  datatype Image = Image(id: string, prompt: string, enhancedPrompt: Option<string>, url: string, timestamp: int)

  /** What a caller of `saveImage` supplies: a record without id and
      timestamp; `enhancedPrompt` is `None` when absent, as in `Image`. */
  datatype Draft = Draft(prompt: string, enhancedPrompt: Option<string>, url: string)

  /** The value under `StorageKey`. `Absent` covers a missing key and the
      empty string, which `getAllImages` treats alike. */
  datatype Storage = Absent | Corrupt | Valid(images: seq<Image>)

  /** Where the code runs: in a browser, or during server-side rendering,
      where there is no `window` and no `localStorage`. */
  datatype Host = Browser | Server

  datatype Saved = Saved(storage: Storage, image: Image)

  datatype Deleted = Deleted(storage: Storage, removed: bool)

  /** No record in `images` has identifier `id`. */
  predicate Fresh(images: seq<Image>, id: string)
  {
    forall i :: 0 <= i < |images| ==> images[i].id != id
  }

  /** No two records share an identifier. */
  ghost predicate UniqueIds(images: seq<Image>)
  {
    forall i, j :: 0 <= i < j < |images| ==> images[i].id != images[j].id
  }

  /** Records are ordered most recent first. */
  ghost predicate NewestFirst(images: seq<Image>)
  {
    forall i, j :: 0 <= i < j < |images| ==> images[i].timestamp >= images[j].timestamp
  }

  /** `getAllImages`: never fails on these storage states; anything but a
      readable list in a browser reads as the empty list. Storage access
      itself is assumed to be granted. */
  function GetAllImages(host: Host, s: Storage): (r: seq<Image>)
    ensures host == Server ==> r == []
    ensures !s.Valid? ==> r == []
    ensures host == Browser && s.Valid? ==> r == s.images
  {
    if host == Server then []
    else match s
      case Absent => []
      case Corrupt => []
      case Valid(images) => images
  }

  /** The position of the first record with identifier `id`, as
      `Array.prototype.find` scans. */
  function IndexOf(images: seq<Image>, id: string): (k: Option<nat>)
    ensures k.None? <==> Fresh(images, id)
    ensures k.Some? ==> k.value < |images| && images[k.value].id == id && Fresh(images[..k.value], id)
  {
    if |images| == 0 then None
    else if images[0].id == id then Some(0)
    else
      var rest := IndexOf(images[1..], id);
      if rest.None? then None
      else
        assert images[..rest.value + 1] == [images[0]] + images[1..][..rest.value];
        Some(rest.value + 1)
  }

  /** `getImageById`: the first stored record with the identifier, if any. */
  function GetImageById(host: Host, s: Storage, id: string): (r: Option<Image>)
    ensures r.None? <==> Fresh(GetAllImages(host, s), id)
    ensures r.Some? ==> r.value.id == id
    ensures r.Some? ==> exists k :: 0 <= k < |GetAllImages(host, s)| && GetAllImages(host, s)[k] == r.value
                                    && Fresh(GetAllImages(host, s)[..k], id)
  {
    var images := GetAllImages(host, s);
    match IndexOf(images, id)
    case None => None
    case Some(k) => Some(images[k])
  }

  /** `images.filter(img => img.id !== id)`. */
  function Without(images: seq<Image>, id: string): (r: seq<Image>)
    ensures Fresh(r, id)
    ensures forall x :: x in r ==> x in images
    ensures forall x :: x in images && x.id != id ==> x in r
    ensures |r| <= |images|
    ensures |r| == |images| <==> Fresh(images, id)
    ensures Fresh(images, id) ==> r == images
  {
    if |images| == 0 then []
    else if images[0].id == id then
      var rest := Without(images[1..], id);
      assert images == [images[0]] + images[1..];
      rest
    else
      var rest := Without(images[1..], id);
      assert images == [images[0]] + images[1..];
      [images[0]] + rest
  }

  /** `saveImage`: prepends the draft, stamped with the given identifier
      and time, to whatever `getAllImages` read, and writes the whole list
      back. The identifier stands for `crypto.randomUUID()` and is assumed
      unused; the time stands for `Date.now()`. */
  function SaveImage(host: Host, s: Storage, draft: Draft, id: string, now: int): (r: Outcome<Saved>)
    requires Fresh(GetAllImages(host, s), id)
    ensures host == Server ==> r == Err(ErrorValue(NoLocalStorage))
    ensures host == Browser ==> r.Ok? && r.value.storage.Valid?
    ensures r.Ok? ==> r.value.image == Image(id, draft.prompt, draft.enhancedPrompt, draft.url, now)
    ensures r.Ok? ==>
              var before := GetAllImages(host, s);
              var after := GetAllImages(host, r.value.storage);
              |after| == |before| + 1 && after[0] == r.value.image && after[1..] == before
  {
    var images := GetAllImages(host, s);
    var image := Image(id, draft.prompt, draft.enhancedPrompt, draft.url, now);
    if host == Server then Err(ErrorValue(NoLocalStorage))
    else Ok(Saved(Valid([image] + images), image))
  }

  /** `deleteImage`: filters the identifier out and writes the list back
      only when its length changed. */
  function DeleteImage(host: Host, s: Storage, id: string): (d: Deleted)
    ensures d.removed <==> !Fresh(GetAllImages(host, s), id)
    ensures !d.removed ==> d.storage == s
    ensures d.removed ==> d.storage == Valid(Without(GetAllImages(host, s), id))
    ensures Fresh(GetAllImages(host, d.storage), id)
  {
    var images := GetAllImages(host, s);
    var kept := Without(images, id);
    if |kept| == |images| then Deleted(s, false)
    else Deleted(Valid(kept), true)
  }

  /** `clearAllImages`: removes the key. */
  function ClearAllImages(host: Host, s: Storage): (r: Outcome<Storage>)
    ensures host == Server <==> r == Err(ErrorValue(NoLocalStorage))
    ensures host == Browser ==> r.Ok? && r.value == Absent
    ensures r.Ok? ==> GetAllImages(host, r.value) == []
  {
    if host == Server then Err(ErrorValue(NoLocalStorage)) else Ok(Absent)
  }

  /** Filtering commutes with concatenation: the kept records stay in their
      original relative order. */
  lemma {:induction false} WithoutAppend(a: seq<Image>, b: seq<Image>, id: string)
    ensures Without(a + b, id) == Without(a, id) + Without(b, id)
    decreases |a|
  {
    if |a| == 0 {
      assert a + b == b;
    } else {
      assert (a + b)[1..] == a[1..] + b;
      WithoutAppend(a[1..], b, id);
    }
  }

  /** Filtering keeps identifiers distinct. */
  lemma {:induction false} WithoutKeepsUniqueIds(images: seq<Image>, id: string)
    requires UniqueIds(images)
    ensures UniqueIds(Without(images, id))
    decreases |images|
  {
    if |images| > 0 {
      var tail := images[1..];
      assert UniqueIds(tail) by {
        forall i, j | 0 <= i < j < |tail| ensures tail[i].id != tail[j].id {
          assert tail[i] == images[i + 1] && tail[j] == images[j + 1];
        }
      }
      WithoutKeepsUniqueIds(tail, id);
      if images[0].id != id {
        var r := Without(images, id);
        var rest := Without(tail, id);
        assert r == [images[0]] + rest;
        forall j | 0 < j < |r| ensures r[0].id != r[j].id {
          assert r[j] in rest;
          assert r[j] in tail;
          var m :| 0 <= m < |tail| && tail[m] == r[j];
          assert images[m + 1] == r[j];
        }
      }
    }
  }

  /** Filtering keeps the most-recent-first order. */
  lemma {:induction false} WithoutKeepsNewestFirst(images: seq<Image>, id: string)
    requires NewestFirst(images)
    ensures NewestFirst(Without(images, id))
    decreases |images|
  {
    if |images| > 0 {
      var tail := images[1..];
      assert NewestFirst(tail) by {
        forall i, j | 0 <= i < j < |tail| ensures tail[i].timestamp >= tail[j].timestamp {
          assert tail[i] == images[i + 1] && tail[j] == images[j + 1];
        }
      }
      WithoutKeepsNewestFirst(tail, id);
      if images[0].id != id {
        var r := Without(images, id);
        var rest := Without(tail, id);
        assert r == [images[0]] + rest;
        forall j | 0 < j < |r| ensures r[0].timestamp >= r[j].timestamp {
          assert r[j] in rest;
          assert r[j] in tail;
          var m :| 0 <= m < |tail| && tail[m] == r[j];
          assert images[m + 1] == r[j];
        }
      }
    }
  }

  /** Saving and then looking up the new identifier returns the saved
      record, and every other lookup answers as before. */
  lemma SaveThenGetById(s: Storage, draft: Draft, id: string, now: int, other: string)
    requires Fresh(GetAllImages(Browser, s), id)
    requires other != id
    ensures var saved := SaveImage(Browser, s, draft, id, now).value;
            && GetImageById(Browser, saved.storage, id) == Some(saved.image)
            && GetImageById(Browser, saved.storage, other) == GetImageById(Browser, s, other)
  {
  }

  /** Deleting the record just saved restores the list that was read before
      the save: delete undoes save. */
  lemma SaveThenDelete(s: Storage, draft: Draft, id: string, now: int)
    requires Fresh(GetAllImages(Browser, s), id)
    ensures var saved := SaveImage(Browser, s, draft, id, now).value;
            var d := DeleteImage(Browser, saved.storage, id);
            d.removed && GetAllImages(Browser, d.storage) == GetAllImages(Browser, s)
  {
  }

  /** The store's invariants: identifiers stay unique under saves with fresh
      identifiers and under deletes, and the list stays most recent first
      when each save's time is no earlier than every stored time. */
  lemma StoreInvariants(s: Storage, draft: Draft, id: string, now: int, victim: string)
    requires UniqueIds(GetAllImages(Browser, s)) && NewestFirst(GetAllImages(Browser, s))
    requires Fresh(GetAllImages(Browser, s), id)
    requires forall i :: 0 <= i < |GetAllImages(Browser, s)| ==> GetAllImages(Browser, s)[i].timestamp <= now
    ensures var after := GetAllImages(Browser, SaveImage(Browser, s, draft, id, now).value.storage);
            UniqueIds(after) && NewestFirst(after)
    ensures var after := GetAllImages(Browser, DeleteImage(Browser, s, victim).storage);
            UniqueIds(after) && NewestFirst(after)
  {
    var before := GetAllImages(Browser, s);
    var saved := SaveImage(Browser, s, draft, id, now).value;
    var after := GetAllImages(Browser, saved.storage);
    assert after == [saved.image] + before;
    forall i, j | 0 <= i < j < |after| ensures after[i].id != after[j].id && after[i].timestamp >= after[j].timestamp {
      if i > 0 {
        assert after[i] == before[i - 1] && after[j] == before[j - 1];
      } else {
        assert after[j] == before[j - 1];
      }
    }
    WithoutKeepsUniqueIds(before, victim);
    WithoutKeepsNewestFirst(before, victim);
  }
}

=== FILE: image_variations.dfy ===
/** `POST /api/image-variations`: one image-generation call whose prompt
    refers to an earlier image by URL when one is given. The provider has no
    variation operation, so a variation is a fresh generation from text. */
module ImageVariationsRoute {
  import opened Js
  import opened Http
  import opened OpenAi

  const DefaultN: int := 1
  const PromptRequired: string := "Prompt is required"
  const Fallback: string := "Failed to generate variations"

  const VariationLead: string := "Create a variation of this image concept ("
  const VariationMiddle: string := "), with these changes: "
  const VariationTail: string := ". Maintain the same style and composition but with the requested modifications."

  datatype VariationRequest = VariationRequest(prompt: Option<string>, n: Option<int>, referenceImageUrl: Option<string>)

  /** The template: the URL, then the user's prompt, each between fixed
      pieces of text. */
  function VariationPrompt(url: string, prompt: string): (p: string)
    ensures |p| == |VariationLead| + |url| + |VariationMiddle| + |prompt| + |VariationTail|
    ensures p[..|VariationLead|] == VariationLead
    ensures p[|VariationLead|..|VariationLead| + |url|] == url
    ensures p[|VariationLead| + |url|..|VariationLead| + |url| + |VariationMiddle|] == VariationMiddle
    ensures p[|VariationLead| + |url| + |VariationMiddle|..|p| - |VariationTail|] == prompt
    ensures p[|p| - |VariationTail|..] == VariationTail
  {
    VariationLead + url + VariationMiddle + prompt + VariationTail
  }

  /** The prompt sent to the provider: the user's own prompt, or the
      template when a reference URL is present. */
  function OutboundPrompt(prompt: string, referenceImageUrl: Option<string>): (p: string)
    ensures !Truthy(referenceImageUrl) ==> p == prompt
    ensures Truthy(referenceImageUrl) ==> p == VariationPrompt(referenceImageUrl.value, prompt)
  {
    if Truthy(referenceImageUrl) then VariationPrompt(referenceImageUrl.value, prompt) else prompt
  }

  /** The handler; `answer` is how the provider call would settle. */
  function Post<B>(req: VariationRequest, answer: Outcome<B>): (x: Exchange<ImageParams, B>)
    ensures x.waits == [] && |x.calls| <= 1
    ensures x.calls == [] <==> !Truthy(req.prompt)
    ensures !Truthy(req.prompt) ==> x.response == Reject(400, PromptRequired)
    ensures Truthy(req.prompt) ==>
              x.calls == [ImageParams(ImageModel, OutboundPrompt(req.prompt.value, req.referenceImageUrl),
                                      req.n.GetOr(DefaultN), SquareSize, None)]
    ensures Truthy(req.prompt) && req.n.None? ==> x.calls[0].n == DefaultN
    ensures Truthy(req.prompt) && req.n.Some? ==> x.calls[0].n == req.n.value
    ensures Truthy(req.prompt) && answer.Ok? ==> x.response == Reply(answer.value)
    ensures Truthy(req.prompt) && answer.Err? ==> x.response == CatchAll(answer.thrown, Fallback)
  {
    if !Truthy(req.prompt) then Exchange(Reject(400, PromptRequired), [], [])
    else
      var params := ImageParams(ImageModel, OutboundPrompt(req.prompt.value, req.referenceImageUrl),
                                req.n.GetOr(DefaultN), SquareSize, None);
      match answer
      case Ok(body) => Exchange(Reply(body), [params], [])
      case Err(t) => Exchange(CatchAll(t, Fallback), [params], [])
  }

  /** The template can be read back: of two requests whose URLs have the
      same length, equal outbound prompts mean equal URLs and prompts. */
  lemma VariationPromptReadBack(url1: string, prompt1: string, url2: string, prompt2: string)
    requires |url1| == |url2|
    requires VariationPrompt(url1, prompt1) == VariationPrompt(url2, prompt2)
    ensures url1 == url2 && prompt1 == prompt2
  {
  }

  /** Whatever the request asks for, a variation is always square and
      never carries a style. */
  lemma AlwaysSquare<B>(req: VariationRequest, answer: Outcome<B>)
    ensures forall c :: c in Post(req, answer).calls ==> c.size == SquareSize && c.style.None?
  {
  }
}

=== FILE: js.dfy ===
/** JavaScript values the route handlers and the image store rely on: optional
    fields, thrown values, the outcome of one asynchronous call, falsiness of
    optional strings, and `String.prototype.includes`. */
module Js {

  /** An optional value. `None` is `undefined` for a request field or a
      thrown value's `message`, and `null` where a provider answer's field
      is nullable; each use says which. */
  datatype Option<+T> = None | Some(value: T) {

    /** The value, or `default` when it is `undefined`: what a destructuring
        default `{ x = default }` binds. */
    function GetOr(default: T): T
    {
      match this
      case Some(v) => v
      case None => default
    }
  }

  /** A value a `throw` can carry. `ErrorValue` is an `instanceof Error`
      object (whose `message` is always a string); `PlainValue` is any other
      non-null value, with its `message` property if it has a string one (a
      `message` that is not a string is not represented and reads as absent);
      `Undefined` is what an uninitialised `let` variable throws; `Null` is
      `throw null`. */
  datatype Thrown = Undefined | Null | ErrorValue(message: string) | PlainValue(text: Option<string>)

  /** The settled result of one awaited call: it resolved with a value or
      it threw. */
  datatype Outcome<+T> = Ok(value: T) | Err(thrown: Thrown)

  /** `!!x` for a string field of a parsed request body. */
  predicate Truthy(x: Option<string>)
    ensures !Truthy(x) <==> x == None || x == Some("")
  {
    x.Some? && x.value != ""
  }

  /** `sub` occurs in `s` starting at index `i`. */
  ghost predicate OccursAt(s: string, sub: string, i: int)
  {
    0 <= i && i + |sub| <= |s| && s[i..i + |sub|] == sub
  }

  /** `sub` is a substring of `s`: the meaning of `includes`. */
  ghost predicate Occurs(s: string, sub: string)
  {
    exists i :: OccursAt(s, sub, i)
  }

  /** When `sub` is not a prefix of `s`, it occurs in `s` exactly when it
      occurs in `s` without its first character. */
  lemma OccursPastHead(s: string, sub: string)
    requires 0 < |s| && |sub| <= |s| && s[..|sub|] != sub
    ensures Occurs(s, sub) <==> Occurs(s[1..], sub)
  {
    if Occurs(s[1..], sub) {
      var i :| OccursAt(s[1..], sub, i);
      assert s[i + 1..i + 1 + |sub|] == s[1..][i..i + |sub|];
      assert OccursAt(s, sub, i + 1);
    }
    if Occurs(s, sub) {
      var i :| OccursAt(s, sub, i);
      assert i != 0;
      assert s[1..][i - 1..i - 1 + |sub|] == s[i..i + |sub|];
      assert OccursAt(s[1..], sub, i - 1);
    }
  }

  /** `s.includes(sub)`, written as the left-to-right scan an implementation
      performs; it answers true exactly when `sub` occurs somewhere in `s`
      (the empty string occurs everywhere). */
  predicate Includes(s: string, sub: string)
    ensures Includes(s, sub) <==> Occurs(s, sub)
    decreases |s|
  {
    if |sub| > |s| then false
    else if s[..|sub|] == sub then
      assert OccursAt(s, sub, 0);
      true
    else
      OccursPastHead(s, sub);
      Includes(s[1..], sub)
  }
}

=== FILE: openai.dfy ===
/** The request and response shapes of the two provider endpoints the routes
    call. The calls themselves are not modelled: each route receives the
    provider's answer as a parameter. */
module OpenAi {
  import opened Js

  const ImageModel: string := "dall-e-3"
  const ChatModel: string := "gpt-4o"
  const SquareSize: string := "1024x1024"

  /** The argument of `images.generate`; `style` is absent where a route
      leaves it out. */
  datatype ImageParams = ImageParams(model: string, prompt: string, n: int, size: string, style: Option<string>)

  datatype Role = System | User

  datatype Message = Message(role: Role, content: string)

  /** The argument of `chat.completions.create`. */
  datatype ChatParams = ChatParams(model: string, messages: seq<Message>, temperature: real, maxTokens: int)

  /** One entry of `choices`; `message.content` may be `null`, which is
      `None` here. */
  datatype Choice = Choice(content: Option<string>)

  /** The resolved value of `chat.completions.create`, as far as a route
      reads it. */
  datatype Completion = Completion(choices: seq<Choice>)
}

=== FILE: retry.dfy ===
/** `retryOperation` of the image-generation route: up to `maxRetries`
    invocations of a remote operation, a flat wait after every failure (three
    times longer for rate-limit failures), and the last failure rethrown
    unchanged. The operation is an oracle: `ops[i]` is how its `i`-th
    invocation settles. Waits are recorded instead of slept. */
module Retry {
  import opened Js

  /** A run of the loop: how it settled, how often the operation was
      invoked, and the waits it performed, in order. */
  datatype Run<+T> = Run(result: Outcome<T>, invocations: nat, waits: seq<int>)

  /** The failure is an `Error` whose message mentions "rate limit" or
      "429". */
  predicate SignalsRateLimit(t: Thrown)
    ensures SignalsRateLimit(t) <==> t.ErrorValue? && (Occurs(t.message, "rate limit") || Occurs(t.message, "429"))
  {
    t.ErrorValue? && (Includes(t.message, "rate limit") || Includes(t.message, "429"))
  }

  /** The wait after a failure; it depends on the failure only, never on the
      attempt number. */
  function WaitFor(t: Thrown, delayMs: int): (w: int)
    ensures SignalsRateLimit(t) ==> w == 3 * delayMs
    ensures !SignalsRateLimit(t) ==> w == delayMs
  {
    if SignalsRateLimit(t) then delayMs * 3 else delayMs
  }

  /** `run` is what the loop does when it may still invoke the operation
      `limit` times, the oracle is `ops`, and `initial` is the value it
      throws if it never invokes the operation: every invocation before the
      last failed; a success is the first one and is returned as is; a
      failing run used up every attempt and rethrows its last failure; a
      wait follows each failure and no success. */
  ghost predicate Describes<T>(run: Run<T>, ops: seq<Outcome<T>>, limit: int, delayMs: int, initial: Thrown)
    requires limit <= |ops|
  {
    && run.invocations <= (if limit < 0 then 0 else limit)
    && (forall i :: 0 <= i < run.invocations - 1 ==> ops[i].Err?)
    && (run.result.Ok? ==> 1 <= run.invocations && ops[run.invocations - 1] == run.result)
    && (run.result.Err? ==>
          && run.invocations == (if limit < 0 then 0 else limit)
          && (run.invocations == 0 ==> run.result.thrown == initial)
          && (run.invocations > 0 ==> ops[run.invocations - 1] == run.result))
    && |run.waits| == (if run.result.Ok? then run.invocations - 1 else run.invocations)
    && (forall i :: 0 <= i < |run.waits| ==> ops[i].Err? && run.waits[i] == WaitFor(ops[i].thrown, delayMs))
  }

  /** The loop from some attempt on: `remaining` attempts are left, `ops`
      holds the outcomes of the invocations still to come, and `lastError`
      is what has been caught so far. */
  function Attempts<T>(ops: seq<Outcome<T>>, remaining: int, delayMs: int, lastError: Thrown): (run: Run<T>)
    requires remaining <= |ops|
    ensures Describes(run, ops, remaining, delayMs, lastError)
    decreases remaining
  {
    if remaining <= 0 then Run(Err(lastError), 0, [])
    else match ops[0]
      case Ok(v) => Run(Ok(v), 1, [])
      case Err(e) =>
        var rest := Attempts(ops[1..], remaining - 1, delayMs, e);
        Run(rest.result, rest.invocations + 1, [WaitFor(e, delayMs)] + rest.waits)
  }

  /** `retryOperation(operation, maxRetries, delayMs)`. `lastError` starts
      out uninitialised, so a non-positive `maxRetries` throws
      `undefined`. */
  function RetryOperation<T>(ops: seq<Outcome<T>>, maxRetries: int, delayMs: int): (run: Run<T>)
    requires maxRetries <= |ops|
    ensures Describes(run, ops, maxRetries, delayMs, Undefined)
  {
    Attempts(ops, maxRetries, delayMs, Undefined)
  }

  /** The `for` loop of the source, statement by statement; it agrees with
      the recursive definition. */
  method RetryLoop<T>(ops: seq<Outcome<T>>, maxRetries: int, delayMs: int) returns (run: Run<T>)
    requires maxRetries <= |ops|
    ensures Describes(run, ops, maxRetries, delayMs, Undefined)
    ensures run == RetryOperation(ops, maxRetries, delayMs)
  {
    var lastError := Undefined;
    var waits: seq<int> := [];
    var attempt := 0;
    while attempt < maxRetries
      invariant 0 <= attempt <= (if maxRetries < 0 then 0 else maxRetries)
      invariant forall i :: 0 <= i < attempt ==> ops[i].Err?
      invariant attempt == 0 ==> lastError == Undefined
      invariant attempt > 0 ==> lastError == ops[attempt - 1].thrown
      invariant |waits| == attempt
      invariant forall i :: 0 <= i < attempt ==> waits[i] == WaitFor(ops[i].thrown, delayMs)
    {
      match ops[attempt] {
        case Ok(v) =>
          run := Run(Ok(v), attempt + 1, waits);
          DescribesUnique(run, RetryOperation(ops, maxRetries, delayMs), ops, maxRetries, delayMs, Undefined);
          return;
        case Err(e) =>
          lastError := e;
          waits := waits + [WaitFor(e, delayMs)];
      }
      attempt := attempt + 1;
    }
    run := Run(Err(lastError), attempt, waits);
    DescribesUnique(run, RetryOperation(ops, maxRetries, delayMs), ops, maxRetries, delayMs, Undefined);
  }

  /** `Describes` pins the run down: the recursive definition and the loop
      cannot disagree. */
  lemma DescribesUnique<T>(a: Run<T>, b: Run<T>, ops: seq<Outcome<T>>, limit: int, delayMs: int, initial: Thrown)
    requires limit <= |ops|
    requires Describes(a, ops, limit, delayMs, initial)
    requires Describes(b, ops, limit, delayMs, initial)
    ensures a == b
  {
  }

  /** An operation that fails every time is invoked exactly `maxRetries`
      times, waited on after each failure, and its last failure is rethrown
      unwrapped. */
  lemma AlwaysFailing<T>(ops: seq<Outcome<T>>, maxRetries: int, delayMs: int)
    requires 1 <= maxRetries <= |ops|
    requires forall i :: 0 <= i < maxRetries ==> ops[i].Err?
    ensures var run := RetryOperation(ops, maxRetries, delayMs);
            && run.result == ops[maxRetries - 1]
            && run.invocations == maxRetries
            && |run.waits| == maxRetries
            && forall i :: 0 <= i < maxRetries ==> run.waits[i] == WaitFor(ops[i].thrown, delayMs)
  {
  }

  /** A first success on attempt `j` is returned after exactly `j`
      invocations and `j - 1` waits. */
  lemma FirstSuccess<T>(ops: seq<Outcome<T>>, maxRetries: int, delayMs: int, j: nat)
    requires maxRetries <= |ops|
    requires 1 <= j <= maxRetries
    requires ops[j - 1].Ok?
    requires forall i :: 0 <= i < j - 1 ==> ops[i].Err?
    ensures var run := RetryOperation(ops, maxRetries, delayMs);
            && run.result == ops[j - 1]
            && run.invocations == j
            && |run.waits| == j - 1
  {
  }

  /** With no attempts allowed the operation is never invoked and the
      uninitialised `lastError` is thrown. */
  lemma NoAttempts<T>(ops: seq<Outcome<T>>, maxRetries: int, delayMs: int)
    requires maxRetries <= 0
    requires maxRetries <= |ops|
    ensures RetryOperation(ops, maxRetries, delayMs) == Run(Err(Undefined), 0, [])
  {
  }
}
